=== FILE: README.md ===
# rtkit-tz-1: a static file server with an LFU cache, in Dafny

The system is a small HTTP server written in Java. It serves files from a
root directory, keeping them in memory in a cache that evicts the least
frequently used entry. This project models four parts of it and proves
properties about each:

- **`FileManager`** (module `FileCache`, file `file_manager.dfy`) is a class.
  Its fields are the same as the Java fields: the path-to-entry `cache` is a
  `map`; the `minHeap` priority queue is the `set` of entry objects it holds;
  and `currentTotalContentLength` is an `int`. `get`, `increment`, `insert`
  and `evictLFU` are methods that update those fields in place.
  - The invariant `Valid` says these things hold:
    - the map and the queue hold the same entries;
    - each entry is filed under its own path;
    - counters are positive and lengths are non-negative;
    - the running total is at least the sum of the lengths of the live entries.
  - `loadFile` reads the disk, so it is a parameter: `LoadOutcome` is an
    entry's data, "no such file" or an I/O error.
- **`CachedFile`** (module `Entry`) is a class. Its counter is mutable and
  its other fields are constants.
- **`HumanBytesFormatter.toBytes`** (module `HumanBytes`) is a function to a
  `Result`, with one error case per exception the Java method can throw.
  Multiplication wraps as in Java `long` arithmetic.
- **The request handler `Server.method`** (module `Server`) has three parts:
  - the line-collecting loop, as a method;
  - the choice of resource, `split(" ")` and the "/" rewrite, as functions;
  - the 200 and 404 responses, as the list of lines written.

  `Handle` puts them together with `FileManager.Get`.
- **Java library behaviour** (module `JavaText`) that the above relies on:
  - the `long` range and its wrap-around;
  - `Long.parseLong` and `Long.toString`;
  - `String.indexOf`, `String.toLowerCase` and `String.split(" ")`.

The running total is modelled as the code keeps it. Despite its name,
`currentTotalContentLength` is not the size of what is cached: `evictLFU`
removes the entry from the map and the queue, but never subtracts its
length. The total is therefore the sum of every length ever inserted, and
the model's invariant is "total ≥ live sum", not equality.

The repository's `CachedFile.java` declares no `etag` field and a
five-argument constructor. `FileManager.loadFile` passes six arguments
(bytes and an ETag), and `Server` reads `getEtag()` and builds the content
with `new String(getContent())`. The model follows those callers: an entry
has an `etag`, and its content is a string.

## Model

| member | source | states |
|---|---|---|
| FileCache.FileManager.constructor | src/main/java/ru/rtkit/FileManager.java:27-35 | A new manager has an empty map and queue, a total of 0 and the given root and limit, and satisfies the cache invariant. |
| FileCache.FileManager.Get | src/main/java/ru/rtkit/FileManager.java:37-49 | On a hit: returns the cached entry itself and increments only that path's counter; map, queue and total are unchanged. On a miss whose load fails: NotFound with "File <path> does not exist", or the I/O message; nothing changes. On a miss that needs an eviction from an empty queue: a null-pointer failure and nothing inserted. On any other miss whose file exists (the cache is non-empty, or no eviction is needed): a fresh entry with counter 1 and the loaded data. An entry of least frequency is evicted exactly when old total + length > limit. The new map is the old one, minus the victim, plus the new entry. The total grows by the new length. The invariant is kept throughout. |
| FileCache.NotFoundMessage | src/main/java/ru/rtkit/FileManager.java:75-76 | The message is "File " followed by the path, from which the path can be read back. |
| FileCache.FileManager.Increment | src/main/java/ru/rtkit/FileManager.java:51-55 | Removing and re-offering the entry leaves map, queue and total as they were. Only the bumped entry's counter changes, by +1. The invariant is kept. |
| FileCache.FileManager.Insert | src/main/java/ru/rtkit/FileManager.java:57-66 | It evicts exactly when the old total + new length passes the limit. Insertion fails only when that eviction finds the queue empty. The new map is the old one, minus at most one least-frequency entry, plus the new file under its path. The total becomes the old total + the new length, with or without an eviction. |
| FileCache.FileManager.EvictLFU | src/main/java/ru/rtkit/FileManager.java:68-71 | On an empty queue it fails (`requireNonNull` of `poll`'s null) and changes nothing. Otherwise it removes from map and queue one entry whose frequency is ≤ every cached entry's. The running total is unchanged, and the invariant is kept. |
| FileCache.GetRepeatedly | src/main/java/ru/rtkit/FileManager.java:37-42 | `n` gets of a cached path are all hits. Its counter rises by exactly `n`. Every other counter, the map, the queue and the total stay as they were. |
| FileCache.LeastFrequentExists | src/main/java/ru/rtkit/FileManager.java:68-69 | A non-empty queue holds an entry of least frequency, so `poll` always has one to return. |
| FileCache.LiveLengthRemove | src/main/java/ru/rtkit/FileManager.java:68-71 | Dropping the evicted entry from the map lowers the sum of live lengths by exactly its length. |
| FileCache.LiveLengthAdd | src/main/java/ru/rtkit/FileManager.java:63-65 | Filing a new entry raises the sum of live lengths by exactly its length. This keeps the live sum within the running total. |
| FileCache.ValuesAfterRemove | src/main/java/ru/rtkit/FileManager.java:69-70 | Removing the polled entry's path from the map removes exactly that entry from the set of values, which keeps map and queue in step. |
| FileCache.ValuesAfterAdd | src/main/java/ru/rtkit/FileManager.java:63-64 | Putting the new entry under a new path adds exactly that entry to the values, as offering it adds it to the queue. |
| Entry.CachedFile.constructor | src/main/java/ru/rtkit/CachedFile.java:16-23 | A new entry starts with frequency 1 and exactly the given path, content, type, modification time, length and ETag. |
| Entry.CachedFile.IncrementFrequency | src/main/java/ru/rtkit/CachedFile.java:25-27 | The counter goes up by exactly one. Nothing else in the entry can change. |
| HumanBytes.Factor | src/main/java/ru/rtkit/HumanBytesFormatter.java:5-7 | A unit's factor is 1024, 1024² or 1024³, or 0 for no unit. |
| HumanBytes.ToBytes | src/main/java/ru/rtkit/HumanBytesFormatter.java:9-18 | Input without a space fails like `substring(0, -1)`. A successful result is a `long` and a multiple of 1024. An unknown unit fails with "Unknown type: " + the whole input. |
| HumanBytes.WrapMultiple | src/main/java/ru/rtkit/HumanBytesFormatter.java:13-15 | The `long` product of a number and a factor is in range, differs from the true product by a multiple of 2^64, and is a multiple of 1024. It equals the true product whenever that fits in a `long`. |
| HumanBytes.ToBytesOfNumber | src/main/java/ru/rtkit/HumanBytesFormatter.java:9-15 | Any number `parseLong` accepts (with a sign, leading zeros or "-0"), then a space and any capitalisation of kb/mb/gb, gives that number times the factor, wrapped to a `long`. It is exactly the product when that fits. |
| HumanBytes.ToBytesOfFormatted | src/main/java/ru/rtkit/HumanBytesFormatter.java:9-15 | Reading "<n> <unit>", for any capitalisation of kb/mb/gb, gives n times the factor, wrapped to a `long`. It is exactly n × factor when that fits, including negative n. |
| HumanBytes.UnitDecides | src/main/java/ru/rtkit/HumanBytesFormatter.java:12-16 | Once the number parses, the input is accepted if and only if the unit lower-cases to kb, mb or gb. Otherwise the error message is "Unknown type: " + the input. |
| HumanBytes.NumberCheckedFirst | src/main/java/ru/rtkit/HumanBytesFormatter.java:10-11 | An unparsable number before the first space is reported as a number error, whatever the unit. |
| HumanBytes.DoubleSpaceRejected | src/main/java/ru/rtkit/HumanBytesFormatter.java:10-12 | Everything after the first space is the unit, so "10  MB" (two spaces) never has a known unit. |
| JavaText.Wrap | src/main/java/ru/rtkit/HumanBytesFormatter.java:13-15 | The `long` result of an arithmetic value is in range. It differs from the value by a multiple of 2^64, and is the value itself when the value fits. |
| JavaText.ParseLong | src/main/java/ru/rtkit/HumanBytesFormatter.java:11 | An accepted number is in `long` range, ends in a digit and contains no space. |
| JavaText.LongToString | src/main/java/ru/rtkit/Server.java:67 | The decimal text of a `long` is non-empty, has no space, starts with '-' exactly for negative numbers, and is otherwise all digits. |
| JavaText.LongRoundTrip | src/main/java/ru/rtkit/Server.java:67 | `Long.parseLong(Long.toString(n)) == n` for every `long` n, so the Content-Length written is the length. |
| JavaText.IndexOf | src/main/java/ru/rtkit/HumanBytesFormatter.java:10 | The result is -1 exactly when the character is absent. Otherwise it is a position of the character with none before it. |
| JavaText.ToLowerCase | src/main/java/ru/rtkit/HumanBytesFormatter.java:12 | Lower-casing keeps the length and maps each character on its own, ASCII capitals and the Kelvin sign going to lower-case letters. |
| JavaText.SplitOnSpace | src/main/java/ru/rtkit/Server.java:55 | No piece holds a space, and a line without a space splits into itself alone. The pieces of a line with spaces are stated by `SplitOfJoinTrailing`. |
| JavaText.SplitOfJoinTrailing | src/main/java/ru/rtkit/Server.java:55 | `split(" ")` of two or more space-free tokens joined by single spaces gives the tokens with the trailing empty ones dropped: "GET " gives ["GET"], and "GET /x " gives ["GET", "/x"]. |
| JavaText.SplitOfJoin | src/main/java/ru/rtkit/Server.java:55 | `split(" ")` of space-free tokens joined by single spaces (last token not empty) gives the tokens back. |
| Server.RequestHead | src/main/java/ru/rtkit/Server.java:49-53 | The lines the loop keeps are no more than the stream holds, and none is empty. |
| Server.CollectRequestLines | src/main/java/ru/rtkit/Server.java:49-53 | The loop collects exactly the lines before the first empty line or the end of the stream. |
| Server.RequestHeadIsPrefix | src/main/java/ru/rtkit/Server.java:51-52 | The collected lines are a prefix of the stream. None of them is empty. Collection stops only at an empty line or the end of the stream. |
| Server.RewriteRoot | src/main/java/ru/rtkit/Server.java:58-60 | The path looked up is never "/". Any other requested path is looked up unchanged, and the result is "/index.html" exactly when the request asked for "/" or "/index.html". |
| Server.DispatchOf | src/main/java/ru/rtkit/Server.java:54-60 | Nothing is done exactly when no line was collected. A first line without a space has no second token (lines with trailing spaces: `DispatchOfTrailingSpaces`). A resource that is looked up is never "/" and contains no space. |
| Server.DispatchOfRequestLine | src/main/java/ru/rtkit/Server.java:54-60 | For a well-formed request line, the resource looked up is its second token, with "/" read as "/index.html". |
| Server.DispatchOfTrailingSpaces | src/main/java/ru/rtkit/Server.java:55-60 | For any request line of space-free tokens, trailing empty ones included: when fewer than two tokens remain after `split(" ")` drops the trailing empties ("GET ", "GET  "), `split[1]` is out of bounds; otherwise the second token is looked up, so "GET /x " asks for "/x". |
| Server.NoSpaceNoResource | src/main/java/ru/rtkit/Server.java:55-56 | A first line without a space has one token, so `split[1]` is out of bounds. |
| Server.DispatchIgnoresHeaders | src/main/java/ru/rtkit/Server.java:54-56 | Once a line was collected, only the first line decides the outcome; the header lines play no part. |
| Server.OkResponse | src/main/java/ru/rtkit/Server.java:65-71 | A 200 response is seven lines: the status line, four non-blank header lines, one blank line, then the content. |
| Server.NotFoundResponse | src/main/java/ru/rtkit/Server.java:73-75 | A 404 response is the status line, a blank line and the message. |
| Server.Render | src/main/java/ru/rtkit/Server.java:61-76 | Once the cache is asked, something is always written or thrown. Every written response ends with a blank line and one body line: the entry's content for an entry, the exception's message for NotFound. |
| Server.OkResponseHeaders | src/main/java/ru/rtkit/Server.java:65-69 | A 200 response starts "HTTP/1.1 200 OK". Reading its header block by name gives the entry's type, modification time and ETag. Content-Length parses back to the entry's length. |
| Server.HeaderBlockReadBack | src/main/java/ru/rtkit/Server.java:66-69 | The four header lines, written in the handler's order, are each found by name with their own value. |
| Server.BodyAfterFirstBlank | src/main/java/ru/rtkit/Server.java:70-71 | A reader's body is exactly the lines after the first blank line. |
| Server.OkResponseBody | src/main/java/ru/rtkit/Server.java:70-71 | After the blank line, a 200 response carries exactly the entry's content. |
| Server.NotFoundResponseReadBack | src/main/java/ru/rtkit/Server.java:72-76 | A 404 response starts "HTTP/1.1 404 Not Found", has no headers, and its body is the exception's message. |
| Server.RenderStatus | src/main/java/ru/rtkit/Server.java:61-76 | A line-by-line response is written exactly when the cache returns an entry (200) or a not-found error (404). A load failure or a failed eviction propagates instead of writing. |
| Server.Answer | src/main/java/ru/rtkit/Server.java:61-76 | The response is the rendering of `get(resource)`. A cached resource gives its entry (so a 200): only its counter is incremented, and the map and the running total are unchanged. An uncached resource gives the disk's verdict: "File <resource> does not exist" (so a 404) when it is absent, and the I/O message when reading fails. In both cases the map, every counter and the total are unchanged. When the file exists, the answer is a null-pointer failure exactly when an eviction would find the cache empty, with the map and the total unchanged. Otherwise it is a fresh entry filed under the resource, with counter 1 and the file's data, and the total grows by the file's length. |
| Server.Handle | src/main/java/ru/rtkit/Server.java:49-76 | With no collected line nothing is written; with a first line of fewer than two tokens there is an out-of-bounds failure. In both cases the map, the queue, the total and every counter stay as they were. Otherwise the request gets exactly the answer, and the map, counter and total effects, that `Answer` states for the dispatched resource and what the disk holds for it. |

## Left out

- `loadFile`'s internals are not modelled: path resolution under `src/main/resources`, reading bytes, `probeContentType` (which may return null), the SHA-256 ETag and the GMT timestamp. Each request receives their result as `LoadOutcome`, and a file's length is taken to be non-negative, as a file size is.
- File content is a string, not a byte array. The 200 body is one written value, and line breaks inside the content are not split out.
- `Server.start`, sockets, the thread pool, `PrintWriter` line terminators, flushing, logging and `Main` are not modelled. Concurrent requests sharing one `FileManager` (whose Java fields are unsynchronised) are not modelled either: each `Handle` runs alone.
- A `readLine` that throws `IOException` (wrapped in a `RuntimeException`) is not modelled: the stream is a finite sequence of lines.
- `PriorityQueue` tie-breaking among entries of equal frequency is not modelled: `EvictLFU` may evict any entry of least frequency.
- FileCache.FileManager.Get: requires the hit path's counter to be below `Integer.MAX_VALUE`, because the Java `int` wrap-around of `frequency++` (and the queue order it would upset) is not modelled.
- Entry.CachedFile.IncrementFrequency: requires `frequency < Integer.MAX_VALUE`, for the same reason.
- FileCache.FileManager.Insert: `currentTotalContentLength` is an unbounded `int`, so the `long` overflow of the running total is not modelled.
- Server.Handle: for a miss that inserts, which entry is evicted, the rest of the new map and the other counters are stated by `FileCache.FileManager.Get`, which it calls, and are not restated here. The same holds for `Server.Answer`.
- JavaText.ParseLong: accepts only ASCII digits; the non-ASCII Unicode digits that `Long.parseLong` also accepts are not modelled.
- JavaText.ToLowerCase: maps only ASCII capitals and the Kelvin sign; other characters are left as they are, which cannot make a unit equal "kb", "mb" or "gb".

=== FILE: cached_file.dfy ===
/**
 * One cached file. Everything about it is fixed when it is loaded except its
 * access counter, `frequency`, which starts at 1 and goes up by one on every
 * cache hit.
 */
module Entry {

  /** The largest value a Java `int` holds. */
  const INT_MAX: int := 0x7fff_ffff

  /** What loading a file produces: everything in an entry except its path and counter. */
  datatype FileData = FileData(
    content: string,
    contentType: string,
    lastModified: string,
    contentLength: int,
    etag: string)

  class CachedFile {
    var frequency: int
    const strPath: string
    const content: string
    const contentType: string
    const lastModified: string
    const contentLength: int
    const etag: string

    constructor (strPath: string, content: string, contentType: string, lastModified: string,
                 contentLength: int, etag: string)
      ensures frequency == 1
      ensures this.strPath == strPath && this.content == content && this.contentType == contentType
      ensures this.lastModified == lastModified && this.contentLength == contentLength
      ensures this.etag == etag
    {
      this.frequency := 1;
      this.strPath := strPath;
      this.content := content;
      this.contentType := contentType;
      this.lastModified := lastModified;
      this.contentLength := contentLength;
      this.etag := etag;
    }

    /** The immutable part of the entry. */
    function Data(): (data: FileData) {
      FileData(content, contentType, lastModified, contentLength, etag)
    }

    /** `frequency++`, for a counter that has not reached the top of the `int` range. */
    method IncrementFrequency()
      requires frequency < INT_MAX
      modifies this`frequency
      ensures frequency == old(frequency) + 1
    {
      frequency := frequency + 1;
    }
  }
}

=== FILE: file_manager.dfy ===
/**
 * `FileManager`: a least-frequently-used cache of files keyed by request path.
 *
 * The Java class keeps a `HashMap` from path to entry, a `PriorityQueue` of
 * the same entries ordered by access frequency, and a running total of the
 * content lengths it has inserted. Here the map is a `map`, and the queue is
 * the set of entry objects it holds: the queue's only observable behaviour
 * is that `poll` yields some entry of least frequency, and the Java code keeps
 * it ordered by removing and re-offering an entry after bumping its counter.
 *
 * The running total is kept as the code keeps it: eviction does not subtract
 * the evicted entry's length, so the total is the sum of every length ever
 * inserted, which is at least the sum over the entries still cached.
 */
module FileCache {
  import opened JavaText
  import opened Entry

  /** What `loadFile` does for a path that missed the cache. */
  datatype LoadOutcome =
    | Exists(data: FileData)    // the file was read; its length is a file size, never negative
    | Absent                    // no such file: NotFoundException
    | IoError(message: string)  // reading or hashing failed: RuntimeException

  /** How `get` ends: with an entry, or with the exception it throws. */
  datatype GetResult =
    | Found(file: CachedFile)
    | NotFound(message: string)
    | Failed(message: string)
    | NullPointer               // eviction found the queue empty

  /** The message of the NotFoundException `loadFile` throws; the path can be read back out of it. */
  function NotFoundMessage(strPath: string): (m: string)
    ensures |m| == |strPath| + 20
    ensures m[..5] == "File " && m[5..5 + |strPath|] == strPath
  {
    "File " + strPath + " does not exist"
  }

  function Without<V>(m: map<string, V>, victim: Option<string>): (rest: map<string, V>) {
    if victim.Some? then m - {victim.value} else m
  }

  // ---------------------------------------------------------------------
  // Sums of lengths over the live entries

  /** The sum of `lengths` over `keys`. */
  ghost function SumLengths(keys: set<string>, lengths: map<string, int>): (sum: int)
    requires keys <= lengths.Keys
    decreases keys
  {
    if keys == {} then 0
    else
      var k :| k in keys;
      lengths[k] + SumLengths(keys - {k}, lengths)
  }

  /** The sum does not depend on which key is taken out first. */
  lemma {:induction false} SumLengthsRemove(keys: set<string>, lengths: map<string, int>, k: string)
    requires keys <= lengths.Keys && k in keys
    ensures SumLengths(keys, lengths) == lengths[k] + SumLengths(keys - {k}, lengths)
    decreases keys
  {
    var j :| j in keys && SumLengths(keys, lengths) == lengths[j] + SumLengths(keys - {j}, lengths);
    if j != k {
      SumLengthsRemove(keys - {j}, lengths, k);
      SumLengthsRemove(keys - {k}, lengths, j);
      assert keys - {j} - {k} == keys - {k} - {j};
    }
  }

  /** The sum over `keys` reads only the lengths of those keys. */
  lemma {:induction false} SumLengthsAgree(keys: set<string>, a: map<string, int>, b: map<string, int>)
    requires keys <= a.Keys && keys <= b.Keys
    requires forall k :: k in keys ==> a[k] == b[k]
    ensures SumLengths(keys, a) == SumLengths(keys, b)
    decreases keys
  {
    if keys != {} {
      var k :| k in keys;
      SumLengthsRemove(keys, a, k);
      SumLengthsRemove(keys, b, k);
      SumLengthsAgree(keys - {k}, a, b);
    }
  }

  /** The content length of each cached path. */
  function LengthsOf(cache: map<string, CachedFile>): (lengths: map<string, int>) {
    map p | p in cache :: cache[p].contentLength
  }

  /** The sum of the content lengths of the entries in `cache`. */
  ghost function LiveLengthOf(cache: map<string, CachedFile>): (live: int) {
    SumLengths(cache.Keys, LengthsOf(cache))
  }

  /** Dropping an entry takes its length off the live sum. */
  lemma LiveLengthRemove(cache: map<string, CachedFile>, k: string)
    requires k in cache
    ensures LiveLengthOf(cache - {k}) == LiveLengthOf(cache) - cache[k].contentLength
  {
    var lengths := LengthsOf(cache);
    SumLengthsRemove(cache.Keys, lengths, k);
    assert (cache - {k}).Keys == cache.Keys - {k};
    SumLengthsAgree(cache.Keys - {k}, lengths, LengthsOf(cache - {k}));
  }

  /** Filing an entry under a new path adds its length to the live sum. */
  lemma LiveLengthAdd(cache: map<string, CachedFile>, k: string, file: CachedFile)
    requires k !in cache
    ensures LiveLengthOf(cache[k := file]) == LiveLengthOf(cache) + file.contentLength
  {
    var added := cache[k := file];
    SumLengthsRemove(added.Keys, LengthsOf(added), k);
    assert added.Keys - {k} == cache.Keys;
    SumLengthsAgree(cache.Keys, LengthsOf(cache), LengthsOf(added));
  }

  // ---------------------------------------------------------------------
  // The least frequently used entry

  /** A non-empty queue always has an entry of least frequency for `poll` to return. */
  lemma {:induction false} LeastFrequentExists(heap: set<CachedFile>)
    requires heap != {}
    ensures exists lfu :: lfu in heap && forall o :: o in heap ==> lfu.frequency <= o.frequency
    decreases |heap|
  {
    var x :| x in heap;
    if heap != {x} {
      LeastFrequentExists(heap - {x});
      var m :| m in heap - {x} && forall o :: o in heap - {x} ==> m.frequency <= o.frequency;
      if x.frequency < m.frequency {
        assert forall o :: o in heap ==> x.frequency <= o.frequency;
      } else {
        assert forall o :: o in heap ==> m.frequency <= o.frequency;
      }
    } else {
      assert forall o :: o in heap ==> x.frequency <= o.frequency;
    }
  }

  /** Each entry filed under its own path: no entry appears under two keys. */
  ghost predicate FiledByPath(cache: map<string, CachedFile>) {
    forall p :: p in cache ==> cache[p].strPath == p
  }

  lemma ValuesAfterRemove(cache: map<string, CachedFile>, k: string)
    requires FiledByPath(cache) && k in cache
    ensures (cache - {k}).Values == cache.Values - {cache[k]}
  {
    forall o | o in cache.Values - {cache[k]} ensures o in (cache - {k}).Values {
      var p :| p in cache && cache[p] == o;
      assert (cache - {k})[p] == o;
    }
  }

  lemma ValuesAfterAdd(cache: map<string, CachedFile>, k: string, file: CachedFile)
    requires k !in cache
    ensures cache[k := file].Values == cache.Values + {file}
  {
    forall o | o in cache.Values ensures o in cache[k := file].Values {
      var p :| p in cache && cache[p] == o;
      assert cache[k := file][p] == o;
    }
    forall o | o in cache[k := file].Values ensures o in cache.Values + {file} {
      var p :| p in cache[k := file] && cache[k := file][p] == o;
      if p != k { assert cache[p] == o; }
    }
    assert cache[k := file][k] == file;
  }

  class FileManager {
    const rootDir: string
    const maxTotalContentLength: int

    var cache: map<string, CachedFile>
    var minHeap: set<CachedFile>
    var currentTotalContentLength: int

    /**
     * The map and the queue hold the same entries, each filed under its own
     * path, with a positive counter and a non-negative length; and the
     * running total covers the lengths of the live entries.
     */
    ghost predicate Valid()
      reads this, minHeap
    {
      Filed() && forall p :: p in cache ==> 1 <= cache[p].frequency
    }

    /** The part of `Valid` that does not depend on the counters. */
    ghost predicate Filed()
      reads this
    {
      && minHeap == cache.Values
      && FiledByPath(cache)
      && (forall p :: p in cache ==> 0 <= cache[p].contentLength)
      && LiveLengthOf(cache) <= currentTotalContentLength
    }

    /** The access counter of each cached path. */
    ghost function Frequencies(): map<string, int>
      reads this, cache.Values
    {
      map p | p in cache :: cache[p].frequency
    }

    constructor (rootDir: string, maxTotalContentLength: int)
      ensures Valid()
      ensures this.rootDir == rootDir && this.maxTotalContentLength == maxTotalContentLength
      ensures cache == map[] && minHeap == {} && currentTotalContentLength == 0
    {
      this.rootDir := rootDir;
      this.maxTotalContentLength := maxTotalContentLength;
      cache := map[];
      minHeap := {};
      currentTotalContentLength := 0;
      new;
      assert LengthsOf(cache) == map[];
    }

    /**
     * Returns the entry for `strPath`, from the cache on a hit and from
     * `loaded` (what `loadFile` gives for this path) on a miss.
     */
    method Get(strPath: string, loaded: LoadOutcome) returns (r: GetResult, ghost victim: Option<string>)
      requires Valid()
      requires strPath in cache ==> cache[strPath].frequency < INT_MAX
      requires loaded.Exists? ==> loaded.data.contentLength >= 0
      modifies this, minHeap
      ensures Valid()
      ensures currentTotalContentLength >= old(currentTotalContentLength)
      // A hit returns the cached entry, bumps its counter and nothing else.
      ensures strPath in old(cache) ==>
        && r == Found(old(cache[strPath]))
        && victim == None
        && cache == old(cache) && minHeap == old(minHeap)
        && currentTotalContentLength == old(currentTotalContentLength)
        && Frequencies() == old(Frequencies())[strPath := old(Frequencies())[strPath] + 1]
      // A miss whose load fails leaves the cache as it was.
      ensures strPath !in old(cache) && !loaded.Exists? ==>
        && r == (if loaded.Absent? then NotFound(NotFoundMessage(strPath)) else Failed(loaded.message))
        && victim == None
        && cache == old(cache) && minHeap == old(minHeap)
        && currentTotalContentLength == old(currentTotalContentLength)
        && Frequencies() == old(Frequencies())
      // A miss that needs an eviction while the queue is empty fails and inserts nothing.
      ensures strPath !in old(cache) && loaded.Exists? && old(cache) == map[]
              && old(currentTotalContentLength) + loaded.data.contentLength > maxTotalContentLength ==>
        && r == NullPointer
        && victim == None
        && cache == old(cache) && minHeap == old(minHeap)
        && currentTotalContentLength == old(currentTotalContentLength)
      // Any other successful miss evicts at most one entry, of least frequency,
      // and stores a fresh entry for the path with counter 1.
      ensures strPath !in old(cache) && loaded.Exists?
              && !(old(cache) == map[]
                   && old(currentTotalContentLength) + loaded.data.contentLength > maxTotalContentLength) ==>
        && r.Found? && fresh(r.file)
        && r.file.strPath == strPath && r.file.Data() == loaded.data && r.file.frequency == 1
        && (victim.Some? <==>
              old(currentTotalContentLength) + loaded.data.contentLength > maxTotalContentLength)
        && (victim.Some? ==>
              && victim.value in old(cache) && victim.value != strPath
              && forall q :: q in old(cache) ==> old(Frequencies())[victim.value] <= old(Frequencies())[q])
        && cache == Without(old(cache), victim)[strPath := r.file]
        && Frequencies() == Without(old(Frequencies()), victim)[strPath := 1]
        && currentTotalContentLength == old(currentTotalContentLength) + loaded.data.contentLength
    {
      if strPath in cache {
        var cachedFile := cache[strPath];
        assert cachedFile.strPath == strPath && cachedFile in minHeap;
        Increment(cachedFile);
        r, victim := Found(cachedFile), None;
      } else {
        match loaded
        case Absent =>
          r, victim := NotFound(NotFoundMessage(strPath)), None;
        case IoError(message) =>
          r, victim := Failed(message), None;
        case Exists(d) =>
          var newFile := new CachedFile(strPath, d.content, d.contentType, d.lastModified,
                                        d.contentLength, d.etag);
          var inserted;
          inserted, victim := Insert(newFile);
          r := if inserted then Found(newFile) else NullPointer;
          if inserted {
            ghost var expected := Without(old(Frequencies()), victim)[strPath := 1];
            forall q | q in cache ensures q in expected && Frequencies()[q] == expected[q] {
              if q != strPath { assert cache[q] == old(cache)[q]; }
            }
            assert Frequencies().Keys == expected.Keys;
          }
      }
    }

    /** Bumps a cached entry's counter and re-files it in the queue. */
    method Increment(cachedFile: CachedFile)
      requires Valid() && cachedFile in minHeap && cachedFile.frequency < INT_MAX
      modifies this, cachedFile
      ensures Valid()
      ensures cache == old(cache) && minHeap == old(minHeap)
      ensures currentTotalContentLength == old(currentTotalContentLength)
      ensures Frequencies() == old(Frequencies())[cachedFile.strPath := old(cachedFile.frequency) + 1]
    {
      ghost var before := Frequencies();
      cachedFile.IncrementFrequency();
      minHeap := minHeap - {cachedFile};
      minHeap := minHeap + {cachedFile};
      forall q | q in cache
        ensures Frequencies()[q] == before[cachedFile.strPath := old(cachedFile.frequency) + 1][q]
      {
        assert cache[q] == cachedFile <==> q == cachedFile.strPath;
      }
    }

    /**
     * Files a newly loaded entry. When the running total plus its length would
     * pass the limit, one least-frequency entry is evicted first; the total
     * becomes that sum whether or not anything was evicted.
     */
    method Insert(newFile: CachedFile) returns (ok: bool, ghost victim: Option<string>)
      requires Valid()
      requires newFile.strPath !in cache && newFile !in minHeap
      requires newFile.frequency == 1 && newFile.contentLength >= 0
      modifies this
      ensures Valid()
      ensures ok <==> !(old(cache) == map[]
                        && old(currentTotalContentLength) + newFile.contentLength > maxTotalContentLength)
      ensures !ok ==>
        && victim == None
        && cache == old(cache) && minHeap == old(minHeap)
        && currentTotalContentLength == old(currentTotalContentLength)
      ensures ok ==>
        && (victim.Some? <==>
              old(currentTotalContentLength) + newFile.contentLength > maxTotalContentLength)
        && (victim.Some? ==>
              && victim.value in old(cache)
              && forall q :: q in old(cache) ==> old(cache)[victim.value].frequency <= old(cache)[q].frequency)
        && cache == Without(old(cache), victim)[newFile.strPath := newFile]
        && currentTotalContentLength == old(currentTotalContentLength) + newFile.contentLength
    {
      var newTotalContentLength := currentTotalContentLength + newFile.contentLength;
      victim := None;
      if newTotalContentLength > maxTotalContentLength {
        var evicted, lfu := EvictLFU();
        if !evicted {
          return false, None;
        }
        victim := Some(lfu);
      }
      ValuesAfterAdd(cache, newFile.strPath, newFile);
      LiveLengthAdd(cache, newFile.strPath, newFile);
      cache := cache[newFile.strPath := newFile];
      minHeap := minHeap + {newFile};
      currentTotalContentLength := newTotalContentLength;
      ok := true;
    }

    /**
     * `poll`s an entry of least frequency from the queue and drops it from the
     * map; the running total is left as it was. On an empty queue `poll`
     * yields null and nothing changes.
     */
    method EvictLFU() returns (ok: bool, ghost victim: string)
      requires Valid()
      modifies this
      ensures Valid()
      ensures ok <==> old(cache) != map[]
      ensures currentTotalContentLength == old(currentTotalContentLength)
      ensures !ok ==> cache == old(cache) && minHeap == old(minHeap)
      ensures ok ==>
        && victim in old(cache)
        && (forall q :: q in old(cache) ==> old(cache)[victim].frequency <= old(cache)[q].frequency)
        && cache == old(cache) - {victim}
    {
      if minHeap == {} {
        return false, "";
      }
      LeastFrequentExists(minHeap);
      var lfu :| lfu in minHeap && forall o :: o in minHeap ==> lfu.frequency <= o.frequency;
      victim := lfu.strPath;
      assert victim in cache && cache[victim] == lfu;
      ValuesAfterRemove(cache, victim);
      LiveLengthRemove(cache, victim);
      minHeap := minHeap - {lfu};
      cache := cache - {lfu.strPath};
      forall q | q in old(cache)
        ensures old(cache)[victim].frequency <= old(cache)[q].frequency
      {
        assert old(cache)[q] in old(minHeap);
      }
      ok := true;
    }
  }

  /**
   * `n` requests in a row for a path that is cached: each is a hit, so the
   * entry's counter goes up by exactly `n` and nothing else changes.
   */
  method GetRepeatedly(fileManager: FileManager, strPath: string, n: nat)
    requires fileManager.Valid() && strPath in fileManager.cache
    requires fileManager.cache[strPath].frequency + n <= INT_MAX
    modifies fileManager, fileManager.minHeap
    ensures fileManager.Valid()
    ensures fileManager.cache == old(fileManager.cache) && fileManager.minHeap == old(fileManager.minHeap)
    ensures fileManager.currentTotalContentLength == old(fileManager.currentTotalContentLength)
    ensures fileManager.Frequencies()
            == old(fileManager.Frequencies())[strPath := old(fileManager.Frequencies())[strPath] + n]
  {
    ghost var before := fileManager.Frequencies();
    var i := 0;
    while i < n
      invariant 0 <= i <= n
      invariant fileManager.Valid()
      invariant fileManager.cache == old(fileManager.cache) && fileManager.minHeap == old(fileManager.minHeap)
      invariant fileManager.currentTotalContentLength == old(fileManager.currentTotalContentLength)
      invariant fileManager.Frequencies() == before[strPath := before[strPath] + i]
    {
      var r, _ := fileManager.Get(strPath, Absent);
      i := i + 1;
    }
  }
}

=== FILE: human_bytes.dfy ===
/**
 * `HumanBytesFormatter.toBytes`: turns a cache size written for people,
 * such as "64 MB", into a number of bytes. The text before the first space
 * is a Java `long`; the text after it, lower-cased, must be "kb", "mb" or
 * "gb", which multiply by 1024, 1024^2 and 1024^3 in `long` arithmetic.
 */
module HumanBytes {
  import opened JavaText

  const KB_FACTOR: int := 1024
  const MB_FACTOR: int := 1024 * KB_FACTOR
  const GB_FACTOR: int := 1024 * MB_FACTOR

  /** The exception `toBytes` ends with when it does not return. */
  datatype Error =
    | NoSpace                       // substring(0, -1): StringIndexOutOfBoundsException
    | BadNumber(text: string)       // Long.parseLong: NumberFormatException
    | UnknownType(message: string)  // the switch's default branch: RuntimeException

  datatype Result = Ok(bytes: int) | Err(error: Error)

  /** The factor a lower-cased unit stands for, or 0 when it is none of the three. */
  function Factor(unit: string): (f: int)
    ensures f == 0 || f == KB_FACTOR || f == MB_FACTOR || f == GB_FACTOR
  {
    if unit == "gb" then GB_FACTOR
    else if unit == "mb" then MB_FACTOR
    else if unit == "kb" then KB_FACTOR
    else 0
  }

  predicate IsUnit(unit: string) {
    ToLowerCase(unit) in {"kb", "mb", "gb"}
  }

  function ToBytes(humanBytes: string): (r: Result)
    ensures ' ' !in humanBytes ==> r == Err(NoSpace)
    ensures r.Ok? ==> InLong(r.bytes) && r.bytes % KB_FACTOR == 0
    ensures r.Err? && r.error.UnknownType? ==> r.error.message == "Unknown type: " + humanBytes
  {
    var spaceNdx := IndexOf(humanBytes, ' ');
    if spaceNdx < 0 then Err(NoSpace)
    else
      var number := humanBytes[..spaceNdx];
      match ParseLong(number)
      case None => Err(BadNumber(number))
      case Some(ret) =>
        var factor := Factor(ToLowerCase(humanBytes[spaceNdx + 1..]));
        if factor == 0 then Err(UnknownType("Unknown type: " + humanBytes))
        else Ok(WrapMultiple(ret, factor))
  }

  /** `ret * factor` in `long` arithmetic; the product stays a multiple of 1024. */
  function WrapMultiple(ret: int, factor: int): (r: int)
    requires factor == KB_FACTOR || factor == MB_FACTOR || factor == GB_FACTOR
    ensures InLong(r) && r % KB_FACTOR == 0
    ensures (r - ret * factor) % LONG_MODULUS == 0
    ensures InLong(ret * factor) ==> r == ret * factor
  {
    var p := ret * factor;
    var w := Wrap(p);
    var kilobytes := if factor == KB_FACTOR then ret else if factor == MB_FACTOR then 1024 * ret else 1024 * 1024 * ret;
    assert p == KB_FACTOR * kilobytes;
    WrapKeepsMultiple(kilobytes, w);
    w
  }

  /** Wrapping to a `long` changes a value by a multiple of 2^64, which 1024 divides. */
  lemma WrapKeepsMultiple(a: int, w: int)
    requires (w - KB_FACTOR * a) % LONG_MODULUS == 0
    ensures w % KB_FACTOR == 0
  {
  }

  /**
   * Any number `Long.parseLong` accepts (a sign, leading zeros, "-0"), one
   * space and a unit is read as that number times the unit's factor, wrapped
   * to a `long`, and exactly the product when that fits. Any capitalisation
   * of the unit works.
   */
  lemma ToBytesOfNumber(number: string, unit: string)
    requires ' ' !in number && ParseLong(number).Some?
    requires IsUnit(unit)
    ensures ToBytes(number + " " + unit)
            == Ok(WrapMultiple(ParseLong(number).value, Factor(ToLowerCase(unit))))
    ensures InLong(ParseLong(number).value * Factor(ToLowerCase(unit))) ==>
            ToBytes(number + " " + unit) == Ok(ParseLong(number).value * Factor(ToLowerCase(unit)))
  {
    var s := number + " " + unit;
    IndexOfAfterPrefix(number, ' ', unit);
    assert s[..|number|] == number;
    assert s[|number| + 1..] == unit;
  }

  /**
   * A size written as `Long.toString(n)`, one space and a unit is read back
   * as n times the unit's factor, wrapped to a `long`, and exactly the
   * product when that fits; a negative `n` gives a negative byte count.
   */
  lemma ToBytesOfFormatted(n: int, unit: string)
    requires InLong(n)
    requires IsUnit(unit)
    ensures ToBytes(LongToString(n) + " " + unit)
            == Ok(WrapMultiple(n, Factor(ToLowerCase(unit))))
    ensures InLong(n * Factor(ToLowerCase(unit))) ==>
            ToBytes(LongToString(n) + " " + unit) == Ok(n * Factor(ToLowerCase(unit)))
  {
    LongRoundTrip(n);
    ToBytesOfNumber(LongToString(n), unit);
  }

  /**
   * Once the number before the first space parses, the unit after it decides:
   * the size is accepted exactly when the unit lower-cases to "kb", "mb" or
   * "gb", and otherwise rejected with "Unknown type: " and the whole input.
   * So "b", "bytes" and " MB" (a second space before the unit) are rejected.
   */
  lemma UnitDecides(number: string, unit: string)
    requires ' ' !in number && ParseLong(number).Some?
    ensures ToBytes(number + " " + unit).Ok? <==> IsUnit(unit)
    ensures !IsUnit(unit) ==>
            ToBytes(number + " " + unit) == Err(UnknownType("Unknown type: " + number + " " + unit))
  {
    var s := number + " " + unit;
    IndexOfAfterPrefix(number, ' ', unit);
    assert s[..|number|] == number;
    assert s[|number| + 1..] == unit;
    assert "Unknown type: " + s == "Unknown type: " + number + " " + unit;
  }

  /** The number comes first: an unparsable number is reported before the unit is looked at. */
  lemma NumberCheckedFirst(number: string, unit: string)
    requires ' ' !in number && ParseLong(number).None?
    ensures ToBytes(number + " " + unit) == Err(BadNumber(number))
  {
    var s := number + " " + unit;
    IndexOfAfterPrefix(number, ' ', unit);
    assert s[..|number|] == number;
  }

  /** A unit preceded by two spaces, as in "10  MB", is never a known unit. */
  lemma DoubleSpaceRejected(unit: string)
    ensures !IsUnit(" " + unit)
  {
    assert ToLowerCase(" " + unit)[0] == ' ';
  }
}

=== FILE: java_text.dfy ===
/**
 * The parts of the Java platform that the server's code leans on, stated as
 * functions over Dafny strings: the range of a Java `long` and its
 * two's-complement wrap-around, `Long.parseLong`, `Long.toString`,
 * `String.indexOf`, `String.toLowerCase` (for the characters that can matter
 * when a unit is compared with "kb", "mb" or "gb") and `String.split(" ")`.
 */
module JavaText {

  datatype Option<T> = None | Some(value: T)

  const LONG_MIN: int := -0x8000_0000_0000_0000
  const LONG_MAX: int := 0x7fff_ffff_ffff_ffff
  const LONG_MODULUS: int := 0x1_0000_0000_0000_0000

  predicate InLong(n: int) {
    LONG_MIN <= n <= LONG_MAX
  }

  /** The value a Java `long` holds after an arithmetic result `n` wraps around. */
  function Wrap(n: int): (r: int)
    ensures InLong(r)
    ensures (r - n) % LONG_MODULUS == 0
    ensures InLong(n) ==> r == n
  {
    (n - LONG_MIN) % LONG_MODULUS + LONG_MIN
  }

  // ---------------------------------------------------------------------
  // Decimal digits

  predicate IsDigit(c: char) {
    '0' <= c <= '9'
  }

  predicate AllDigits(s: string) {
    forall i :: 0 <= i < |s| ==> IsDigit(s[i])
  }

  /** The number written by a string of ASCII decimal digits, most significant first. */
  function DigitsValue(s: string): (v: nat)
    requires AllDigits(s)
  {
    if s == [] then 0
    else DigitsValue(s[..|s| - 1]) * 10 + (s[|s| - 1] as int - '0' as int)
  }

  function DigitChar(d: nat): (c: char)
    requires d < 10
    ensures IsDigit(c) && c as int - '0' as int == d
  {
    ('0' as int + d) as char
  }

  /** The shortest decimal spelling of a natural number. */
  function NatToDigits(n: nat): (s: string)
    ensures |s| >= 1 && AllDigits(s)
    decreases n
  {
    if n < 10 then [DigitChar(n)]
    else NatToDigits(n / 10) + [DigitChar(n % 10)]
  }

  lemma {:induction false} NatToDigitsCorrect(n: nat)
    ensures |NatToDigits(n)| >= 1
    ensures AllDigits(NatToDigits(n))
    ensures DigitsValue(NatToDigits(n)) == n
    decreases n
  {
    if n >= 10 {
      NatToDigitsCorrect(n / 10);
      var s := NatToDigits(n);
      assert s[..|s| - 1] == NatToDigits(n / 10);
    }
  }

  /** `Long.toString(n)`: an optional minus sign, then the shortest decimal digits. */
  function LongToString(n: int): (s: string)
    ensures |s| >= 1 && ' ' !in s
    ensures s[0] == '-' <==> n < 0
    ensures AllDigits(if n < 0 then s[1..] else s)
  {
    if n < 0 then "-" + NatToDigits(-n) else NatToDigits(n)
  }

  /**
   * `Long.parseLong(s)`: an optional leading '+' or '-', then at least one
   * decimal digit, and a value inside the range of a `long`; anything else
   * is a `NumberFormatException`, here `None`.
   */
  function ParseLong(s: string): (r: Option<int>)
    ensures r.Some? ==> InLong(r.value)
    ensures r.Some? ==> |s| >= 1 && IsDigit(s[|s| - 1])
    ensures r.Some? ==> ' ' !in s
  {
    if |s| == 0 then None
    else
      var start := if s[0] == '-' || s[0] == '+' then 1 else 0;
      var digits := s[start..];
      if |digits| == 0 || !AllDigits(digits) then None
      else
        var v: int := if s[0] == '-' then -(DigitsValue(digits) as int) else DigitsValue(digits);
        if InLong(v) then Some(v) else None
  }

  /** What `Long.toString` writes, `Long.parseLong` reads back. */
  lemma LongRoundTrip(n: int)
    requires InLong(n)
    ensures ParseLong(LongToString(n)) == Some(n)
  {
    var s := LongToString(n);
    if n < 0 {
      NatToDigitsCorrect(-n);
      assert s[1..] == NatToDigits(-n);
      assert DigitsValue(s[1..]) == -n;
    } else {
      NatToDigitsCorrect(n);
      assert s[0] != '-' && s[0] != '+' && s[0..] == s;
    }
  }

  // ---------------------------------------------------------------------
  // Searching and case

  /** `s.indexOf(c)`: the first position of `c` in `s`, or -1 when there is none. */
  function IndexOf(s: string, c: char): (i: int)
    ensures -1 <= i < |s|
    ensures i == -1 <==> c !in s
    ensures 0 <= i ==> s[i] == c && c !in s[..i]
  {
    if |s| == 0 then -1
    else if s[0] == c then 0
    else
      assert s == [s[0]] + s[1..];
      var j := IndexOf(s[1..], c);
      assert 0 <= j ==> s[..j + 1] == [s[0]] + s[1..][..j];
      if j == -1 then -1 else j + 1
  }

  /**
   * `Character.toLowerCase` restricted to what decides whether a string
   * lower-cases to one of "kb", "mb" and "gb": ASCII capitals, and the Kelvin
   * sign U+212A, which Java lower-cases to 'k'. Every other character is
   * left as it is, which cannot turn a non-matching unit into a matching one.
   */
  function ToLowerChar(c: char): (l: char)
    ensures ('a' <= l <= 'z') <==> ('a' <= c <= 'z' || 'A' <= c <= 'Z' || c == '\U{212A}')
  {
    if 'A' <= c <= 'Z' then (c as int + 32) as char
    else if c == '\U{212A}' then 'k'
    else c
  }

  /** `s.toLowerCase()`, character by character. */
  function ToLowerCase(s: string): (r: string)
    ensures |r| == |s|
    ensures forall i :: 0 <= i < |s| ==> r[i] == ToLowerChar(s[i])
  {
    if s == [] then [] else [ToLowerChar(s[0])] + ToLowerCase(s[1..])
  }

  // ---------------------------------------------------------------------
  // String.split(" ")

  /** The pieces of `s` between single spaces, empty pieces included. */
  function Fields(s: string): (parts: seq<string>)
    ensures |parts| >= 1
    ensures forall k :: 0 <= k < |parts| ==> ' ' !in parts[k]
    decreases |s|
  {
    var i := IndexOf(s, ' ');
    if i < 0 then [s] else [s[..i]] + Fields(s[i + 1..])
  }

  /** Drops the empty strings at the end of a split, as `String.split` does. */
  function DropTrailingEmpty(parts: seq<string>): (r: seq<string>)
    ensures r <= parts
    ensures r == [] || r[|r| - 1] != ""
    ensures forall k :: |r| <= k < |parts| ==> parts[k] == ""
  {
    if parts != [] && parts[|parts| - 1] == "" then DropTrailingEmpty(parts[..|parts| - 1])
    else parts
  }

  /**
   * `s.split(" ")`: when `s` holds no space the result is `[s]`, even for
   * the empty string; otherwise the fields between single spaces with the
   * trailing empty ones removed (leading empty fields stay).
   */
  function SplitOnSpace(s: string): (r: seq<string>)
    ensures forall k :: 0 <= k < |r| ==> ' ' !in r[k]
    ensures ' ' !in s ==> r == [s]
  {
    if ' ' !in s then [s] else DropTrailingEmpty(Fields(s))
  }

  /** The tokens written with one space between each two. */
  function JoinWithSpaces(tokens: seq<string>): (s: string)
    requires tokens != []
  {
    if |tokens| == 1 then tokens[0] else tokens[0] + " " + JoinWithSpaces(tokens[1..])
  }

  /** The first occurrence of `c` in `a + [c] + b` is the one after `a` when `a` holds none. */
  lemma {:induction false} IndexOfAfterPrefix(a: string, c: char, b: string)
    requires c !in a
    ensures IndexOf(a + [c] + b, c) == |a|
  {
    if a != [] {
      assert (a + [c] + b)[1..] == a[1..] + [c] + b;
      IndexOfAfterPrefix(a[1..], c, b);
    }
  }

  lemma {:induction false} FieldsOfJoin(tokens: seq<string>)
    requires tokens != []
    requires forall k :: 0 <= k < |tokens| ==> ' ' !in tokens[k]
    ensures Fields(JoinWithSpaces(tokens)) == tokens
  {
    var s := JoinWithSpaces(tokens);
    if |tokens| == 1 {
      assert IndexOf(s, ' ') == -1;
    } else {
      var rest := JoinWithSpaces(tokens[1..]);
      assert s == tokens[0] + [' '] + rest;
      IndexOfAfterPrefix(tokens[0], ' ', rest);
      var i := |tokens[0]|;
      assert s[..i] == tokens[0];
      assert s[i + 1..] == rest;
      FieldsOfJoin(tokens[1..]);
    }
  }

  /**
   * Splitting a line made of at least two space-free tokens joined by single
   * spaces gives the tokens back with the trailing empty ones dropped: "GET "
   * splits into ["GET"] alone, and "GET /x " into ["GET", "/x"].
   */
  lemma SplitOfJoinTrailing(tokens: seq<string>)
    requires |tokens| >= 2
    requires forall k :: 0 <= k < |tokens| ==> ' ' !in tokens[k]
    ensures SplitOnSpace(JoinWithSpaces(tokens)) == DropTrailingEmpty(tokens)
  {
    FieldsOfJoin(tokens);
    assert JoinWithSpaces(tokens) == tokens[0] + " " + JoinWithSpaces(tokens[1..]);
    assert JoinWithSpaces(tokens)[|tokens[0]|] == ' ';
  }

  /**
   * Splitting a line made of space-free tokens joined by single spaces gives
   * the tokens back, provided the last token is not empty.
   */
  lemma SplitOfJoin(tokens: seq<string>)
    requires tokens != []
    requires forall k :: 0 <= k < |tokens| ==> ' ' !in tokens[k]
    requires tokens[|tokens| - 1] != ""
    ensures SplitOnSpace(JoinWithSpaces(tokens)) == tokens
  {
    FieldsOfJoin(tokens);
    var s := JoinWithSpaces(tokens);
    if ' ' !in s {
      assert Fields(s) == [s];
    }
  }
}

=== FILE: server.dfy ===
/**
 * The request handling in `Server.method`: read lines until a blank line or
 * the end of the stream, take the second space-separated token of the first
 * line as the resource (rewriting "/" to "/index.html"), look it up in the
 * file cache and answer with a 200 or a 404 response, written line by line.
 */
module Server {
  import opened JavaText
  import opened Entry
  import opened FileCache

  // ---------------------------------------------------------------------
  // Reading the request

  /** The lines before the first empty line, or all of them when there is none. */
  function RequestHead(stream: seq<string>): (head: seq<string>)
    ensures |head| <= |stream|
    ensures forall k :: 0 <= k < |head| ==> head[k] != ""
  {
    if stream == [] || stream[0] == "" then [] else [stream[0]] + RequestHead(stream[1..])
  }

  /**
   * The head is a prefix of the stream without empty lines, and it stops
   * only at the end of the stream or at an empty line.
   */
  lemma {:induction false} RequestHeadIsPrefix(stream: seq<string>)
    ensures RequestHead(stream) <= stream
    ensures forall k :: 0 <= k < |RequestHead(stream)| ==> RequestHead(stream)[k] != ""
    ensures |RequestHead(stream)| == |stream| || stream[|RequestHead(stream)|] == ""
  {
    if stream != [] && stream[0] != "" {
      RequestHeadIsPrefix(stream[1..]);
    }
  }

  /**
   * The reading loop: `readLine` until it yields null (the end of `stream`)
   * or an empty line, appending every other line.
   */
  method CollectRequestLines(stream: seq<string>) returns (requestStrings: seq<string>)
    ensures requestStrings == RequestHead(stream)
  {
    requestStrings := [];
    var i := 0;
    while i < |stream| && stream[i] != ""
      invariant 0 <= i <= |stream|
      invariant requestStrings == stream[..i]
      invariant RequestHead(stream) == requestStrings + RequestHead(stream[i..])
    {
      assert stream[i..][1..] == stream[i + 1..];
      requestStrings := requestStrings + [stream[i]];
      i := i + 1;
    }
  }

  // ---------------------------------------------------------------------
  // Choosing the resource

  /** What the handler does with the lines it collected. */
  datatype Dispatch =
    | NoRequest                 // nothing was collected: nothing is written
    | BadRequestLine            // split[1] does not exist: ArrayIndexOutOfBoundsException
    | Lookup(resource: string)  // ask the cache for this path

  /** Only the root is rewritten; every other path is looked up as given. */
  function RewriteRoot(resource: string): (path: string)
    ensures path != "/"
    ensures resource != "/" ==> path == resource
    ensures path == "/index.html" <==> resource == "/" || resource == "/index.html"
  {
    if resource == "/" then "/index.html" else resource
  }

  /**
   * Where the collected lines lead: nothing to do, a request line with fewer
   * than two tokens, or the lookup of its second token, never the root itself.
   */
  function DispatchOf(requestStrings: seq<string>): (d: Dispatch)
    ensures d.NoRequest? <==> requestStrings == []
    ensures requestStrings != [] && ' ' !in requestStrings[0] ==> d == BadRequestLine
    ensures d.Lookup? ==> d.resource != "/" && ' ' !in d.resource
  {
    if requestStrings == [] then NoRequest
    else
      var split := SplitOnSpace(requestStrings[0]);
      if |split| < 2 then BadRequestLine else Lookup(RewriteRoot(split[1]))
  }

  /**
   * A request line of space-free tokens joined by single spaces (the last one
   * not empty) asks for its second token, with "/" read as "/index.html";
   * the method token and the header lines play no part.
   */
  lemma DispatchOfRequestLine(tokens: seq<string>, headers: seq<string>)
    requires |tokens| >= 2
    requires forall k :: 0 <= k < |tokens| ==> ' ' !in tokens[k]
    requires tokens[|tokens| - 1] != ""
    ensures DispatchOf([JoinWithSpaces(tokens)] + headers) == Lookup(RewriteRoot(tokens[1]))
    ensures tokens[1] == "/" ==> DispatchOf([JoinWithSpaces(tokens)] + headers) == Lookup("/index.html")
    ensures tokens[1] != "/" ==> DispatchOf([JoinWithSpaces(tokens)] + headers) == Lookup(tokens[1])
  {
    SplitOfJoin(tokens);
  }

  /**
   * Any request line of space-free tokens joined by single spaces, trailing
   * empty tokens included: once `split(" ")` has dropped those, fewer than two
   * tokens means `split[1]` is out of bounds ("GET ", "GET  "), and otherwise
   * the second token is looked up ("GET /x " asks for "/x").
   */
  lemma DispatchOfTrailingSpaces(tokens: seq<string>, headers: seq<string>)
    requires |tokens| >= 2
    requires forall k :: 0 <= k < |tokens| ==> ' ' !in tokens[k]
    ensures DispatchOf([JoinWithSpaces(tokens)] + headers)
            == (if |DropTrailingEmpty(tokens)| < 2 then BadRequestLine else Lookup(RewriteRoot(tokens[1])))
  {
    SplitOfJoinTrailing(tokens);
    var kept := DropTrailingEmpty(tokens);
    if |kept| >= 2 {
      assert kept[1] == tokens[1];
    }
  }

  /** A first line without a space has a single token, so there is no resource. */
  lemma NoSpaceNoResource(first: string, headers: seq<string>)
    requires ' ' !in first
    ensures DispatchOf([first] + headers) == BadRequestLine
  {
  }

  /** Only the first line decides what is looked up. */
  lemma DispatchIgnoresHeaders(first: string, headers: seq<string>, otherHeaders: seq<string>)
    ensures DispatchOf([first] + headers) == DispatchOf([first] + otherHeaders)
    ensures DispatchOf([first] + headers) != NoRequest
  {
  }

  // ---------------------------------------------------------------------
  // Writing the response

  /** How the handler ends: lines written to the socket, nothing, or an exception. */
  datatype Outcome =
    | NoResponse
    | Response(lines: seq<string>)
    | Crash(fault: Fault)

  datatype Fault = IndexOutOfBounds | NullPointer | Runtime(message: string)

  /** The 200 response: a status line, four headers, one blank line, the content. */
  function OkResponse(d: FileData): (lines: seq<string>)
    ensures |lines| == 7 && lines[0] == "HTTP/1.1 200 OK" && lines[5] == "" && lines[6] == d.content
    ensures forall k :: 0 <= k < 5 ==> lines[k] != ""
  {
    [ "HTTP/1.1 200 OK",
      "Content-Type: " + d.contentType,
      "Content-Length: " + LongToString(d.contentLength),
      "Last-Modified: " + d.lastModified,
      "Etag: " + d.etag,
      "",
      d.content ]
  }

  /** The 404 response: a status line, a blank line, the message. */
  function NotFoundResponse(message: string): (lines: seq<string>)
    ensures |lines| == 3 && lines[0] == "HTTP/1.1 404 Not Found" && lines[1] == "" && lines[2] == message
  {
    [ "HTTP/1.1 404 Not Found",
      "",
      message ]
  }

  /** What the handler writes, or throws, once the cache has answered. */
  function Render(r: GetResult): (out: Outcome)
    ensures out != NoResponse
    ensures out.Response? ==> |out.lines| >= 3 && out.lines[|out.lines| - 2] == ""
    ensures r.Found? ==> out.Response? && out.lines[|out.lines| - 1] == r.file.content
    ensures r.NotFound? ==> out.Response? && out.lines[|out.lines| - 1] == r.message
  {
    match r
    case Found(file) => Response(OkResponse(file.Data()))
    case NotFound(message) => Response(NotFoundResponse(message))
    case Failed(message) => Crash(Runtime(message))
    case NullPointer => Crash(Fault.NullPointer)
  }

  // A reader for responses, used to state what a client gets back.

  /** The value of the first header line named `name`, looking only before the first blank line. */
  function HeaderValue(headerLines: seq<string>, name: string): (value: Option<string>) {
    if headerLines == [] || headerLines[0] == "" then None
    else if name + ": " <= headerLines[0] then Some(headerLines[0][|name| + 2..])
    else HeaderValue(headerLines[1..], name)
  }

  /** The lines after the first blank line. */
  function BodyLines(lines: seq<string>): (body: seq<string>) {
    if lines == [] then []
    else if lines[0] == "" then lines[1..]
    else BodyLines(lines[1..])
  }

  /** A header line whose name differs from `name` at some position is passed over. */
  lemma HeaderValueSkips(line: string, rest: seq<string>, name: string, k: nat)
    requires line != "" && k < |line| && k < |name| + 2 && line[k] != (name + ": ")[k]
    ensures HeaderValue([line] + rest, name) == HeaderValue(rest, name)
  {
  }

  /** The header line written as `name: value` is found with that value. */
  lemma HeaderValueFinds(name: string, value: string, rest: seq<string>)
    ensures HeaderValue([name + ": " + value] + rest, name) == Some(value)
  {
  }

  /** The body is everything after the first blank line. */
  lemma {:induction false} BodyAfterFirstBlank(lines: seq<string>, j: nat)
    requires j < |lines| && lines[j] == ""
    requires forall k :: 0 <= k < j ==> lines[k] != ""
    ensures BodyLines(lines) == lines[j + 1..]
    decreases j
  {
    if j > 0 {
      BodyAfterFirstBlank(lines[1..], j - 1);
      assert lines[1..][j..] == lines[j + 1..];
    }
  }

  /** The four header lines of a 200 response, read back by name. */
  lemma {:induction false} HeaderBlockReadBack(contentType: string, contentLength: string,
                                               lastModified: string, etag: string, rest: seq<string>)
    ensures var h := ["Content-Type: " + contentType, "Content-Length: " + contentLength,
                      "Last-Modified: " + lastModified, "Etag: " + etag] + rest;
      && HeaderValue(h, "Content-Type") == Some(contentType)
      && HeaderValue(h, "Content-Length") == Some(contentLength)
      && HeaderValue(h, "Last-Modified") == Some(lastModified)
      && HeaderValue(h, "Etag") == Some(etag)
  {
    var typeLine, lengthLine, modifiedLine, etagLine :=
      "Content-Type: " + contentType, "Content-Length: " + contentLength,
      "Last-Modified: " + lastModified, "Etag: " + etag;
    var h := [typeLine, lengthLine, modifiedLine, etagLine] + rest;
    assert h == [typeLine] + h[1..] && h[1..] == [lengthLine] + h[2..];
    assert h[2..] == [modifiedLine] + h[3..] && h[3..] == [etagLine] + rest;

    HeaderValueFinds("Content-Type", contentType, h[1..]);

    HeaderValueSkips(typeLine, h[1..], "Content-Length", 8);
    HeaderValueFinds("Content-Length", contentLength, h[2..]);

    HeaderValueSkips(typeLine, h[1..], "Last-Modified", 0);
    HeaderValueSkips(lengthLine, h[2..], "Last-Modified", 0);
    HeaderValueFinds("Last-Modified", lastModified, h[3..]);

    HeaderValueSkips(typeLine, h[1..], "Etag", 0);
    HeaderValueSkips(lengthLine, h[2..], "Etag", 0);
    HeaderValueSkips(modifiedLine, h[3..], "Etag", 0);
    HeaderValueFinds("Etag", etag, rest);
  }

  /**
   * A client reading the header block of a 200 response finds each of the
   * four headers with the entry's own value, and Content-Length as a number
   * it can parse back.
   */
  lemma OkResponseHeaders(d: FileData)
    requires InLong(d.contentLength)
    ensures OkResponse(d)[0] == "HTTP/1.1 200 OK"
    ensures HeaderValue(OkResponse(d)[1..], "Content-Type") == Some(d.contentType)
    ensures HeaderValue(OkResponse(d)[1..], "Content-Length").Some?
    ensures ParseLong(HeaderValue(OkResponse(d)[1..], "Content-Length").value) == Some(d.contentLength)
    ensures HeaderValue(OkResponse(d)[1..], "Last-Modified") == Some(d.lastModified)
    ensures HeaderValue(OkResponse(d)[1..], "Etag") == Some(d.etag)
  {
    var contentLength := LongToString(d.contentLength);
    HeaderBlockReadBack(d.contentType, contentLength, d.lastModified, d.etag, ["", d.content]);
    assert OkResponse(d)[1..] == ["Content-Type: " + d.contentType, "Content-Length: " + contentLength,
                                  "Last-Modified: " + d.lastModified, "Etag: " + d.etag] + ["", d.content];
    LongRoundTrip(d.contentLength);
  }

  /** The body of a 200 response, after the blank line, is the entry's content. */
  lemma OkResponseBody(d: FileData)
    ensures BodyLines(OkResponse(d)) == [d.content]
  {
    BodyAfterFirstBlank(OkResponse(d), 5);
  }

  /** A 404 response has no headers at all, and its body is the exception's message. */
  lemma NotFoundResponseReadBack(message: string, name: string)
    ensures NotFoundResponse(message)[0] == "HTTP/1.1 404 Not Found"
    ensures HeaderValue(NotFoundResponse(message)[1..], name) == None
    ensures BodyLines(NotFoundResponse(message)) == [message]
  {
  }

  /** Every request that reaches the cache gets either the 200 or the 404 layout, or no answer. */
  lemma RenderStatus(r: GetResult)
    ensures Render(r).Response? <==> r.Found? || r.NotFound?
    ensures Render(r).Response? ==>
            Render(r).lines[0] == (if r.Found? then "HTTP/1.1 200 OK" else "HTTP/1.1 404 Not Found")
  {
  }

  // ---------------------------------------------------------------------
  // The whole handler

  /**
   * How `fileManager.get(resource)` answers when `loaded` is what `loadFile`
   * would give, stated over the cache's map, counters and running total
   * before and after the call: a cached resource yields its entry, whose
   * counter alone goes up; an uncached one yields the disk's verdict, and a
   * new entry filed under the resource with counter 1, its length added to
   * the total, when the file exists and the cache has room or something to
   * evict. Every failure leaves map, counters and total as they were.
   */
  ghost predicate Answered(cache0: map<string, CachedFile>, frequencies0: map<string, int>,
                           total0: int, maxTotal: int, resource: string, loaded: LoadOutcome,
                           cache1: map<string, CachedFile>, frequencies1: map<string, int>,
                           total1: int, got: GetResult)
    requires frequencies0.Keys == cache0.Keys && frequencies1.Keys == cache1.Keys
  {
    && (got.Found? ==>
          resource in cache1 && cache1[resource] == got.file && got.file.strPath == resource)
    && (resource in cache0 ==>
          && got == Found(cache0[resource])
          && cache1 == cache0 && total1 == total0
          && frequencies1 == frequencies0[resource := frequencies0[resource] + 1])
    && (resource !in cache0 && loaded.Absent? ==>
          && got == NotFound(NotFoundMessage(resource))
          && cache1 == cache0 && frequencies1 == frequencies0 && total1 == total0)
    && (resource !in cache0 && loaded.IoError? ==>
          && got == Failed(loaded.message)
          && cache1 == cache0 && frequencies1 == frequencies0 && total1 == total0)
    && (resource !in cache0 && loaded.Exists? ==>
          if cache0 == map[] && total0 + loaded.data.contentLength > maxTotal
          then got == GetResult.NullPointer && cache1 == cache0 && total1 == total0
          else got.Found? && got.file.Data() == loaded.data
               && frequencies1[resource] == 1 && total1 == total0 + loaded.data.contentLength)
  }

  /** The lookup and the response for a request that names `resource`. */
  method Answer(fileManager: FileManager, resource: string, loaded: LoadOutcome)
    returns (out: Outcome, ghost got: GetResult)
    requires fileManager.Valid()
    requires resource in fileManager.cache ==> fileManager.cache[resource].frequency < INT_MAX
    requires loaded.Exists? ==> loaded.data.contentLength >= 0
    modifies fileManager, fileManager.minHeap
    ensures fileManager.Valid()
    ensures Answered(old(fileManager.cache), old(fileManager.Frequencies()),
                     old(fileManager.currentTotalContentLength), fileManager.maxTotalContentLength,
                     resource, loaded, fileManager.cache, fileManager.Frequencies(),
                     fileManager.currentTotalContentLength, got)
    ensures resource !in old(fileManager.cache) && got.Found? ==> fresh(got.file)
    ensures out == Render(got)
  {
    var r, _ := fileManager.Get(resource, loaded);
    out, got := Render(r), r;
  }

  /**
   * Handles one connection: `stream` is what `readLine` yields before the
   * end of the stream, and `disk` is what `loadFile` would give for each
   * path at this moment.
   */
  method Handle(fileManager: FileManager, stream: seq<string>, disk: string -> LoadOutcome)
    returns (out: Outcome, ghost got: Option<GetResult>)
    requires fileManager.Valid()
    requires DispatchOf(RequestHead(stream)).Lookup? ==>
      var resource := DispatchOf(RequestHead(stream)).resource;
      && (resource in fileManager.cache ==> fileManager.cache[resource].frequency < INT_MAX)
      && (disk(resource).Exists? ==> disk(resource).data.contentLength >= 0)
    modifies fileManager, fileManager.minHeap
    ensures fileManager.Valid()
    // Without a lookup nothing in the cache changes.
    ensures !DispatchOf(RequestHead(stream)).Lookup? ==>
      && got == None
      && out == (if DispatchOf(RequestHead(stream)).NoRequest? then NoResponse else Crash(IndexOutOfBounds))
      && fileManager.cache == old(fileManager.cache) && fileManager.minHeap == old(fileManager.minHeap)
      && fileManager.currentTotalContentLength == old(fileManager.currentTotalContentLength)
      && fileManager.Frequencies() == old(fileManager.Frequencies())
    ensures DispatchOf(RequestHead(stream)).Lookup? ==>
      var resource := DispatchOf(RequestHead(stream)).resource;
      && got.Some? && out == Render(got.value)
      && Answered(old(fileManager.cache), old(fileManager.Frequencies()),
                  old(fileManager.currentTotalContentLength), fileManager.maxTotalContentLength,
                  resource, disk(resource), fileManager.cache, fileManager.Frequencies(),
                  fileManager.currentTotalContentLength, got.value)
      && (resource !in old(fileManager.cache) && got.value.Found? ==> fresh(got.value.file))
  {
    var requestStrings := CollectRequestLines(stream);
    match DispatchOf(requestStrings)
    case NoRequest =>
      out, got := NoResponse, None;
    case BadRequestLine =>
      out, got := Crash(IndexOutOfBounds), None;
    case Lookup(resource) =>
      ghost var answer;
      out, answer := Answer(fileManager, resource, disk(resource));
      got := Some(answer);
  }
}
